=== FILE: README.md ===
# NodeBB chat-notification debounce, modelled in Dafny

NodeBB's messaging module notifies the users of a chat room in two ways.
`Messaging.notifyUsersInRoom` runs once for each message sent to a room:

- it lets the `filter:messaging.notify` hook veto the call or rewrite the recipient list;
- it broadcasts `event:chats.receive` to every remaining recipient at once, with `self` set to 1 for the sender and 0 for everyone else;
- unless the message is a system message, it coalesces the message into `Messaging.notifyQueue` under the key `${fromUid}:${roomId}` and re-arms that entry's timeout.

When the timeout fires, `sendNotifications` keeps the captured recipients who are offline and are not the sender. If any remain, it creates one `new-chat` / `new-group-chat` notification whose `bodyLong` is the merged content, deletes the queue entry, and pushes the notification to them.

The model is functional. A `State` holds:

- the queue, a map from key string to entry (merged message, current timeout handle);
- the scheduled timeouts, a map from handle to the captured sender, room and recipient list;
- a counter for fresh handles.

`clearTimeout` removes a handle. `setTimeout` adds one. Firing is the step `Dispatcher.Fire`, and there is no clock. Collaborators are inputs to the model:

- the member list after `user.blocks.filterUids`;
- the hook, as a function on payloads;
- `user.isOnline`, as a predicate on uids;
- `Messaging.isGroupChat`, as a predicate on rooms.

Uids are natural numbers. Room ids are strings. Keys and notification ids are real strings built from the decimal rendering of the uid.

The two source texts differ in one place that the model can observe, so `Dispatcher.Build` picks which one runs. Their other differences are listed under "Left out".

- `Source` is `notifications.ts`, whose timeout calls `sendNotifications`;
- `Compiled` is `notifications.js`, whose timeout callback `() => () => ...` only returns a function, so firing it sends nothing and deletes nothing.

The invariant `Queue.Valid` says that every scheduled timeout is the current timeout of the entry under its key. It follows that a key never has more than one pending flush. Every step preserves the invariant.

Two behaviours of the code shape the model:

- Merged metadata. The entry stores the FIRST message of a window (src/messaging/notifications.ts:54-57), and later messages only extend its `content` (line 51). So `fromUser`, whose display name fills the subject and bodyShort, and `roomId`, which builds the path, come from the first message (lines 76, 81-82, 86).
- Deleting the entry. The entry is deleted after `notifications.create`, and only when recipients remain (lines 72-74, 89). As a result, a flush that finds everybody online leaves the entry queued, and the next message is appended to content that was already broadcast (`Dispatcher.AllOnlineFlushKeepsStaleContent`).

## Model

| member | source | states |
|---|---|---|
| Text.DecimalRoundTrip | src/messaging/notifications.ts:49 | the decimal rendering of a uid inside a key reads back as the same uid |
| Keys.QueueKeyRoundTrip | src/messaging/notifications.ts:49 | a `${fromUid}:${roomId}` key splits back into exactly its sender and room |
| Keys.QueueKeyInjective | src/messaging/notifications.ts:57 | two different (sender, room) pairs never share a queue key, so the queue holds at most one entry per pair |
| Keys.NotificationIdInjective | src/messaging/notifications.ts:84 | two different (sender, room) pairs never share a `chat_${fromuid}_${roomId}` notification id |
| Broadcast.SelfFlag | src/messaging/notifications.ts:41 | `self` is 1 exactly when the recipient is the sender and 0 exactly when it is not |
| Broadcast.Deliver | src/messaging/notifications.js:62-69 | one delivery per position of the final uid list, in order, each carrying the hook's payload with `self` set for that recipient |
| Broadcast.DeliverOnePerRecipient | src/messaging/notifications.ts:40-44 | the deliveries go to exactly the final uid list, so each uid gets as many payloads as it has occurrences |
| Queue.InitialValid | src/messaging/notifications.ts:20 | the empty queue with nothing scheduled satisfies the queue/timer invariant, and no key has a pending flush |
| Queue.AtMostOnePending | src/messaging/notifications.ts:50-60 | under the invariant a key has at most one pending flush, and it is the timeout its entry holds |
| Queue.Append | src/messaging/notifications.ts:51 | coalescing appends a newline and the new body and changes no other field of the merged message |
| Queue.Enqueue | src/messaging/notifications.js:74-85 | an existing key gets the body appended and a new key gets the message verbatim (clearing the old timeout is stated by `Queue.EnqueueClearsOnlyItsKey`); either way one fresh timeout captures this call's sender, room and recipients; other keys keep their entries |
| Queue.EnqueueClearsOnlyItsKey | src/messaging/notifications.ts:50-52 | re-arming clears the key's previous timeout and leaves every timeout of other keys scheduled |
| Queue.EnqueuePreservesValid | src/messaging/notifications.ts:49-60 | handling a message keeps the queue/timer invariant and leaves exactly one pending flush for the key, the timeout just armed |
| Flush.OfflineRecipients | src/messaging/notifications.ts:70-71 | a uid is kept exactly when it is in the captured list, offline and not the sender; nothing is added |
| Flush.OfflineRecipientsCounts | src/messaging/notifications.ts:70-71 | each uid that is offline and not the sender occurs in the result exactly as often as in the captured list; every other uid occurs zero times |
| Flush.SendNotifications | src/messaging/notifications.ts:69-91 | nothing is sent and the queue is unchanged exactly when every captured uid is online or the sender; otherwise exactly that key is deleted and one notification goes to the offline non-senders, each occurrence in the captured list kept, with type `new-group-chat` or `new-chat` by the room predicate, subject and bodyShort built from the first message's display name, the merged body, the sender/room nid, the sender as `from` and the first message's room path |
| Dispatcher.NotifyUsersInRoom | src/messaging/notifications.ts:21-67 | a vetoed hook result changes nothing and sends nothing; otherwise every final uid gets its payload; a system message leaves the queue unchanged; any other message is enqueued with the hook's final uids |
| Dispatcher.Fire | src/messaging/notifications.ts:60-66 | a cleared or already fired timeout does nothing; firing spends the timeout; the source build flushes the captured recipients with the entry's merged message; the compiled build sends nothing and keeps the queue |
| Dispatcher.NotifyUsersInRoomPreservesValid | src/messaging/notifications.js:44-100 | handling a message keeps the queue/timer invariant |
| Dispatcher.FirePreservesValid | src/messaging/notifications.ts:88-90 | firing keeps the invariant, and a flush that notifies leaves its key with no entry and no pending flush |
| Dispatcher.CoalescedStep | src/messaging/notifications.ts:50-62 | one more message of a burst extends the merged body by a newline and its content, keeps the first message's other fields, and leaves one pending flush, which captures this call's recipients whatever the previous one had captured; other keys keep their entries and their scheduled timeouts |
| Dispatcher.BurstIsEnqueueAll | src/messaging/notifications.ts:34-58 | when the hook passes every message of a burst and none is a system message, handling the burst changes the queue exactly as enqueueing each message with its own call's final uids does; each call may see a different member list and hook result |
| Dispatcher.EnqueueAllCoalesces | src/messaging/notifications.ts:49-62 | enqueueing a run of messages for a fresh key, each with its own recipient list, yields one entry with the bodies joined by newlines and one pending flush holding the last call's recipient list; other keys keep their entries and their scheduled timeouts |
| Dispatcher.BurstCoalesces | src/messaging/notifications.ts:49-62 | a burst of non-system messages for a fresh key, with member lists and hook results that may change from call to call, leaves one entry holding the first message with all bodies joined by newlines in arrival order, one pending flush with the last call's recipients, every other key's entry as it was, and every other key's scheduled timeouts still scheduled with the same task |
| Dispatcher.FirstCallEffects | src/messaging/notifications.ts:39-58 | the first call broadcasts "hi" to uid 1 with `self` 1 and to uid 2 with `self` 0, and opens the entry with that message verbatim and one timeout |
| Dispatcher.SecondCallEffects | src/messaging/notifications.ts:39-60 | the second call broadcasts "there" the same way, appends it to the entry and replaces the cleared timeout with a new one |
| Dispatcher.TwoMessagesState | src/messaging/notifications.ts:39-60 | "hi" then "there" from uid 1 in room "7" are each broadcast to uids 1 and 2, with `self` 1 for uid 1 and 0 for uid 2, and together leave one entry "hi\nthere" with one pending timeout |
| Dispatcher.ScenarioDescriptor | src/messaging/notifications.ts:79-87 | the descriptor for that burst, field by field |
| Dispatcher.AfterBurstFlush | src/messaging/notifications.ts:69-90 | firing the burst's timeout with uid 2 offline deletes the entry, spends the timer and pushes the merged body to uid 2 |
| Dispatcher.ScenarioOneNotificationPerBurst | src/messaging/notifications.ts:69-90 | the cleared first timeout does nothing; the second sends one notification "hi\nthere" to uid 2 and empties the queue |
| Dispatcher.ScenarioRecipientCameOnline | src/messaging/notifications.ts:72-74 | if uid 2 is online at flush time, no notification is created and the entry stays |
| Dispatcher.CompiledTimerDropsNotification | src/messaging/notifications.js:85-99 | with the compiled timeout callback the same burst yields no notification and the entry stays queued, where the source build notifies |
| Dispatcher.FireNotifiesOfflineRecipient | src/messaging/notifications.ts:60-62 | a source-build flush whose captured list holds an offline non-sender notifies that user with the merged body and retires the key |
| Dispatcher.AllOnlineFlushKeepsStaleContent | src/messaging/notifications.ts:72-74 | a flush that finds every captured uid online or the sender sends nothing and keeps the entry, so the next message is appended to the old body |

## Findings

| source | as written | input that shows it | evidently intended | confidence | as-written member | corrected member |
|---|---|---|---|---|---|---|
| src/messaging/notifications.js:85 | the timeout callback is `() => () => __awaiter(...)`, so firing it only builds a function and `sendNotifications` never runs | uid 1 sends "hi" and "there" to room "7" with member uid 2 offline; the fired timeout sends nothing and the entry stays forever | the timeout runs `sendNotifications`, as `setTimeout(async () => ...)` does in notifications.ts:60 | high; not executed | Dispatcher.CompiledTimerDropsNotification | Dispatcher.FireNotifiesOfflineRecipient |

## Left out

- Collaborator internals are inputs and are not modelled: `Messaging.getUidsInRoom` and `user.blocks.filterUids` (the member list), `plugins.hooks.fire` (the hook function), `user.isOnline`, `Messaging.isGroupChat`, `notifications.create`, `notifications.push`, `Messaging.pushUnreadCount` and `sockets.in(...).emit`.
- Flush.OfflineRecipients: `user.isOnline` returns a flag per list position; the model asks a predicate per uid, so the same uid twice gets the same answer.
- Broadcast.Deliver: the per-recipient `pushUnreadCount` call and the emit to `uid_${uid}` are one `Delivery` record. The source mutates one shared `data` object; the model gives each delivery its own copy with `self` set. This matches a payload that is serialised at emit time.
- Wall-clock time and `meta.config.notificationSendDelay * 1000` are not modelled. Timeouts are abstract handles that are armed, cleared or fired, in any order the environment chooses.
- Async interleaving between `await`s is not modelled, for example a message that lands between `notifications.create` and the `delete`. Each call and each timer firing is one atomic step.
- Dispatcher.Fire: it reads the entry under the task's key, while the source closure reads its captured `queueObj`. Under `Queue.Valid` these are the same object. The branch for a missing entry cannot happen in a valid state.
- Dispatcher.Fire: exceptions from collaborators are not modelled. A throw before the `delete` would leave the entry queued after the timer is spent.
- Error logging is not modelled: the winston message, and `reportError` in notifications.js:94, which that file never defines.
- The `__awaiter` generator shim is not modelled.
- Push failures are not modelled. `notifications.push` is not awaited in notifications.ts:90, so a rejected push escapes the timer's try/catch. notifications.js:39 `yield`s it, so there the failure is caught and logged. The model's push always succeeds.
- `parseInt` is not modelled: uids are natural numbers, so `parseInt(uid) === parseInt(fromUid)` becomes plain equality.
- Object aliasing is not modelled. The first message object is stored by reference, so the source's `+=` on `content` also changes the caller's object. The model's values are immutable.
- Payload shape: the initial `self` (`this` in the TypeScript text, the unset `num` in the compiled text) is modelled as undefined in both. A hook result whose `uids` is not a list is not modelled.

=== FILE: broadcast.dfy ===
/**
 * The prelude of `notifyUsersInRoom`: the hook may veto the whole call,
 * otherwise every remaining recipient is sent the payload at once, with
 * `self` telling the sender's own sessions apart.
 */
module Broadcast {
  import opened Wrappers
  import opened Keys
  import opened Chat

  /** The payload offered to the hook, before `self` has been assigned. */
  function InitialPayload(fromUid: Uid, roomId: RoomId, msg: Message, uids: seq<Uid>): Payload
  {
    Payload(roomId, fromUid, msg, Some(uids), None)
  }

  /** A hook result that is null, lacks `uids` or has none left stops the call. */
  predicate Vetoed(data: Option<Payload>)
  {
    data.None? || data.value.uids.None? || |data.value.uids.value| == 0
  }

  /** The value of `self` for one recipient: 1 for the sender, 0 for anyone else. */
  function SelfFlag(uid: Uid, fromUid: Uid): (f: nat)
    ensures f == 1 <==> uid == fromUid
    ensures f == 0 <==> uid != fromUid
  {
    if uid == fromUid then 1 else 0
  }

  /** The deliveries of the `uids.forEach` loop, in list order. */
  function Deliver(data: Payload, fromUid: Uid, uids: seq<Uid>): (ds: seq<Delivery>)
    ensures |ds| == |uids|
    ensures forall i :: 0 <= i < |ds| ==> ds[i].uid == uids[i]
    ensures forall i :: 0 <= i < |ds| ==> ds[i].payload == data.(self := Some(SelfFlag(uids[i], fromUid)))
  {
    if |uids| == 0 then []
    else [Delivery(uids[0], data.(self := Some(SelfFlag(uids[0], fromUid))))] + Deliver(data, fromUid, uids[1..])
  }

  /** Who the deliveries went to, one entry per delivery. */
  function Recipients(ds: seq<Delivery>): seq<Uid>
  {
    if |ds| == 0 then [] else [ds[0].uid] + Recipients(ds[1..])
  }

  /** Each uid gets exactly as many payloads as it has occurrences in the list. */
  lemma {:induction false} DeliverOnePerRecipient(data: Payload, fromUid: Uid, uids: seq<Uid>)
    ensures Recipients(Deliver(data, fromUid, uids)) == uids
    ensures multiset(Recipients(Deliver(data, fromUid, uids))) == multiset(uids)
  {
    if |uids| > 0 {
      var rest := Deliver(data, fromUid, uids[1..]);
      var ds := [Delivery(uids[0], data.(self := Some(SelfFlag(uids[0], fromUid))))] + rest;
      assert Deliver(data, fromUid, uids) == ds;
      assert ds[1..] == rest;
      DeliverOnePerRecipient(data, fromUid, uids[1..]);
      assert Recipients(ds) == [uids[0]] + uids[1..];
      assert [uids[0]] + uids[1..] == uids;
    }
  }
}

=== FILE: chat.dfy ===
/**
 * The records the notifier reads and produces: a chat message, the
 * `filter:messaging.notify` payload that is broadcast as
 * `event:chats.receive`, and the notification descriptor handed to the
 * notification store.
 */
module Chat {
  import opened Wrappers
  import opened Keys

  /** `messageObj.fromUser`; only the display name is read here. */
  datatype User = User(displayname: string)

  /** The message object: its body, author, room and whether it is a system message. */
  datatype Message = Message(content: string, fromUser: User, roomId: RoomId, system: bool)

  /**
   * `{ roomId, fromUid, message, uids, self }`. A hook may drop `uids`
   * (None); `self` is undefined (None) until the broadcast loop sets it.
   */
  datatype Payload = Payload(roomId: RoomId, fromUid: Uid, message: Message, uids: Option<seq<Uid>>, self: Option<nat>)

  /** One recipient's share of the broadcast: `pushUnreadCount(uid)` and the emit to room `uid_${uid}`. */
  datatype Delivery = Delivery(uid: Uid, payload: Payload)

  /** The fields passed to `notifications.create`. */
  datatype Notification = Notification(
    kind: string,
    subject: string,
    bodyShort: string,
    bodyLong: string,
    nid: string,
    from: Uid,
    path: string)

  /** `notifications.push(notification, uids)`. */
  datatype Push = Push(notification: Notification, recipients: seq<Uid>)
}

=== FILE: dispatcher.dfy ===
/**
 * The two entry points of the notifier: `notifyUsersInRoom`, run for each
 * message sent into a room, and the firing of an armed timeout. Every
 * collaborator is an input: `uids` is the room's member list after
 * `user.blocks.filterUids`, `hook` is `filter:messaging.notify`, `online`
 * is `user.isOnline` and `isGroupChat` is `Messaging.isGroupChat`.
 */
module Dispatcher {
  import opened Wrappers
  import opened Text
  import opened Keys
  import opened Chat
  import opened Broadcast
  import opened Queue
  import opened Flush

  /**
   * Which text of the module runs: `Source` is notifications.ts, whose timeout
   * calls `sendNotifications`; `Compiled` is notifications.js, whose timeout
   * callback only returns a function that is never called.
   */
  datatype Build = Source | Compiled

  datatype Handled = Handled(state: State, deliveries: seq<Delivery>)

  datatype Fired = Fired(state: State, push: Option<Push>)

  /** `Messaging.notifyUsersInRoom(fromUid, roomId, messageObj)`, as one atomic step. */
  function NotifyUsersInRoom(st: State, fromUid: Uid, roomId: RoomId, msg: Message, uids: seq<Uid>,
                             hook: Payload -> Option<Payload>): (r: Handled)
    ensures Vetoed(hook(InitialPayload(fromUid, roomId, msg, uids))) ==> r.state == st && r.deliveries == []
    ensures !Vetoed(hook(InitialPayload(fromUid, roomId, msg, uids))) ==>
      var data := hook(InitialPayload(fromUid, roomId, msg, uids)).value;
      && |r.deliveries| == |data.uids.value|
      && forall i :: 0 <= i < |r.deliveries| ==>
           && r.deliveries[i].uid == data.uids.value[i]
           && r.deliveries[i].payload == data.(self := r.deliveries[i].payload.self)
           && (r.deliveries[i].payload.self == Some(1) <==> data.uids.value[i] == fromUid)
           && (r.deliveries[i].payload.self == Some(0) <==> data.uids.value[i] != fromUid)
    ensures msg.system ==> r.state == st
    ensures !Vetoed(hook(InitialPayload(fromUid, roomId, msg, uids))) && !msg.system ==>
      r.state == Enqueue(st, fromUid, roomId, msg, hook(InitialPayload(fromUid, roomId, msg, uids)).value.uids.value)
  {
    var data := hook(InitialPayload(fromUid, roomId, msg, uids));
    if Vetoed(data) then
      Handled(st, [])
    else
      var recipients := data.value.uids.value;
      var deliveries := Deliver(data.value, fromUid, recipients);
      if msg.system then Handled(st, deliveries)
      else Handled(Enqueue(st, fromUid, roomId, msg, recipients), deliveries)
  }

  /**
   * The timeout with handle `h` fires. A handle that was cleared or has
   * already fired does nothing. Otherwise the timer is spent; under `Source`
   * the captured sender, room and recipients are flushed with the entry's
   * merged message.
   */
  function Fire(st: State, h: Handle, build: Build, online: Uid -> bool, isGroupChat: RoomId -> bool): (r: Fired)
    ensures h !in st.timers ==> r == Fired(st, None)
    ensures h in st.timers ==> r.state.timers == st.timers - {h} && r.state.nextHandle == st.nextHandle
    ensures build == Compiled ==> r.push.None? && r.state.queue == st.queue
    ensures build == Source && Valid(st) && h in st.timers ==>
      var t := st.timers[h];
      var f := SendNotifications(st.queue, t.fromUid, t.uids, t.roomId, st.queue[t.Key()].message,
                                 online, isGroupChat(t.roomId));
      r.push == f.push && r.state.queue == f.queue
  {
    if h !in st.timers then
      Fired(st, None)
    else
      var t := st.timers[h];
      var spent := st.timers - {h};
      if build == Compiled || t.Key() !in st.queue then
        Fired(st.(timers := spent), None)
      else
        var f := SendNotifications(st.queue, t.fromUid, t.uids, t.roomId, st.queue[t.Key()].message,
                                   online, isGroupChat(t.roomId));
        Fired(State(f.queue, spent, st.nextHandle), f.push)
  }

  /** Handling a message keeps the queue and its timers consistent. */
  lemma NotifyUsersInRoomPreservesValid(st: State, fromUid: Uid, roomId: RoomId, msg: Message, uids: seq<Uid>,
                                        hook: Payload -> Option<Payload>)
    requires Valid(st)
    ensures Valid(NotifyUsersInRoom(st, fromUid, roomId, msg, uids, hook).state)
  {
    var data := hook(InitialPayload(fromUid, roomId, msg, uids));
    if !Vetoed(data) && !msg.system {
      EnqueuePreservesValid(st, fromUid, roomId, msg, data.value.uids.value);
    }
  }

  /**
   * Firing keeps the queue and its timers consistent; a flush that sends a
   * notification leaves its key with no entry and no pending flush.
   */
  lemma FirePreservesValid(st: State, h: Handle, build: Build, online: Uid -> bool, isGroupChat: RoomId -> bool)
    requires Valid(st)
    ensures Valid(Fire(st, h, build, online, isGroupChat).state)
    ensures h in st.timers && Fire(st, h, build, online, isGroupChat).push.Some? ==>
      var key := st.timers[h].Key();
      key !in Fire(st, h, build, online, isGroupChat).state.queue
      && PendingFor(Fire(st, h, build, online, isGroupChat).state, key) == {}
  {
    var r := Fire(st, h, build, online, isGroupChat);
    if h in st.timers && r.push.Some? {
      var key := st.timers[h].Key();
      forall h' | h' in r.state.timers
        ensures r.state.timers[h'].Key() != key
      {
        assert st.queue[st.timers[h'].Key()].timeout == h';
      }
      assert PendingFor(r.state, key) == {};
    }
  }

  /** The bodies of a run of messages, in arrival order. */
  function Contents(msgs: seq<Message>): seq<string>
  {
    seq(|msgs|, i requires 0 <= i < |msgs| => msgs[i].content)
  }

  /**
   * Handles `msgs` in order, from one sender in one room; the i-th call sees
   * the member list `members[i]`, so members may join or leave mid-burst.
   */
  function Burst(st: State, fromUid: Uid, roomId: RoomId, msgs: seq<Message>, members: seq<seq<Uid>>,
                 hook: Payload -> Option<Payload>): State
    requires |members| == |msgs|
    decreases |msgs|
  {
    if |msgs| == 0 then st
    else
      var n := |msgs|;
      var before := Burst(st, fromUid, roomId, msgs[..n - 1], members[..n - 1], hook);
      NotifyUsersInRoom(before, fromUid, roomId, msgs[n - 1], members[n - 1], hook).state
  }

  /** The hook lets `msg` through and leaves exactly `final` as its recipients. */
  ghost predicate Passes(hook: Payload -> Option<Payload>, fromUid: Uid, roomId: RoomId, msg: Message,
                         uids: seq<Uid>, final: seq<Uid>)
  {
    var data := hook(InitialPayload(fromUid, roomId, msg, uids));
    !Vetoed(data) && data.value.uids.value == final
  }

  /**
   * What a burst leaves behind for `key`: the entry holds `first` with the
   * bodies `parts` joined by newlines, one pending flush with `task`, the
   * keys of `st` keep their entries, and the timeouts of every other key
   * stay scheduled with the same task.
   */
  ghost predicate Coalesced(st: State, r: State, key: string, first: Message, parts: seq<string>, task: Task)
  {
    && Valid(r)
    && key in r.queue
    && r.queue[key].message == first.(content := Join(parts, "\n"))
    && PendingFor(r, key) == {r.queue[key].timeout}
    && r.timers[r.queue[key].timeout] == task
    && r.queue.Keys == st.queue.Keys + {key}
    && (forall k :: k in st.queue ==> r.queue[k] == st.queue[k])
    && (forall h :: h in st.timers && st.timers[h].Key() != key ==> h in r.timers && r.timers[h] == st.timers[h])
  }

  /**
   * One more message of the burst extends the joined body by one part, and
   * its call's recipient list replaces whatever the pending flush had captured.
   */
  lemma CoalescedStep(st: State, before: State, fromUid: Uid, roomId: RoomId, first: Message, parts: seq<string>,
                      previous: Task, msg: Message, final: seq<Uid>)
    requires QueueKey(fromUid, roomId) !in st.queue
    requires 0 < |parts|
    requires Coalesced(st, before, QueueKey(fromUid, roomId), first, parts, previous)
    ensures Coalesced(st, Enqueue(before, fromUid, roomId, msg, final), QueueKey(fromUid, roomId), first,
                      parts + [msg.content], Task(fromUid, roomId, final))
  {
    var extended := parts + [msg.content];
    assert extended[..|extended| - 1] == parts;
    assert Join(extended, "\n") == Join(parts, "\n") + "\n" + msg.content;
    EnqueuePreservesValid(before, fromUid, roomId, msg, final);
    EnqueueClearsOnlyItsKey(before, fromUid, roomId, msg, final);
  }

  /** The queue half alone: `msgs[i]` enqueued in order, arming a timeout with `finals[i]`. */
  function EnqueueAll(st: State, fromUid: Uid, roomId: RoomId, msgs: seq<Message>, finals: seq<seq<Uid>>): State
    requires |finals| == |msgs|
    decreases |msgs|
  {
    if |msgs| == 0 then st
    else
      var n := |msgs|;
      Enqueue(EnqueueAll(st, fromUid, roomId, msgs[..n - 1], finals[..n - 1]), fromUid, roomId, msgs[n - 1], finals[n - 1])
  }

  /**
   * When the hook passes every message of a burst, leaving `finals[i]` for the
   * i-th, and none is a system message, handling it is enqueueing it.
   */
  lemma {:induction false} BurstIsEnqueueAll(st: State, fromUid: Uid, roomId: RoomId, msgs: seq<Message>,
                                             members: seq<seq<Uid>>, finals: seq<seq<Uid>>,
                                             hook: Payload -> Option<Payload>)
    requires |members| == |msgs| && |finals| == |msgs|
    requires forall i :: 0 <= i < |msgs| ==> !msgs[i].system
    requires forall i :: 0 <= i < |msgs| ==> Passes(hook, fromUid, roomId, msgs[i], members[i], finals[i])
    ensures Burst(st, fromUid, roomId, msgs, members, hook) == EnqueueAll(st, fromUid, roomId, msgs, finals)
  {
    if 0 < |msgs| {
      var n := |msgs|;
      var prefix := msgs[..n - 1];
      assert Passes(hook, fromUid, roomId, msgs[n - 1], members[n - 1], finals[n - 1]);
      forall i | 0 <= i < |prefix|
        ensures !prefix[i].system && Passes(hook, fromUid, roomId, prefix[i], members[..n - 1][i], finals[..n - 1][i])
      {
        assert prefix[i] == msgs[i];
      }
      BurstIsEnqueueAll(st, fromUid, roomId, prefix, members[..n - 1], finals[..n - 1], hook);
    }
  }

  /**
   * Enqueueing a run of messages for a key with no entry coalesces them into
   * one entry with one pending flush, which holds the LAST call's recipients.
   */
  lemma {:induction false} EnqueueAllCoalesces(st: State, fromUid: Uid, roomId: RoomId, msgs: seq<Message>,
                                               finals: seq<seq<Uid>>)
    requires Valid(st)
    requires QueueKey(fromUid, roomId) !in st.queue
    requires 0 < |msgs| && |finals| == |msgs|
    ensures Coalesced(st, EnqueueAll(st, fromUid, roomId, msgs, finals), QueueKey(fromUid, roomId),
                      msgs[0], Contents(msgs), Task(fromUid, roomId, finals[|finals| - 1]))
  {
    var n := |msgs|;
    var last := msgs[n - 1];
    var prefix := msgs[..n - 1];
    var before := EnqueueAll(st, fromUid, roomId, prefix, finals[..n - 1]);
    if n == 1 {
      assert before == st;
      assert Join(Contents(msgs), "\n") == msgs[0].content;
      EnqueuePreservesValid(st, fromUid, roomId, last, finals[0]);
      EnqueueClearsOnlyItsKey(st, fromUid, roomId, last, finals[0]);
    } else {
      var earlier := finals[..n - 1];
      EnqueueAllCoalesces(st, fromUid, roomId, prefix, earlier);
      assert Contents(msgs) == Contents(prefix) + [last.content];
      assert prefix[0] == msgs[0];
      CoalescedStep(st, before, fromUid, roomId, msgs[0], Contents(prefix),
                    Task(fromUid, roomId, earlier[|earlier| - 1]), last, finals[n - 1]);
    }
  }

  /**
   * A burst of non-system messages for a key with no entry leaves one entry:
   * the first message with every body joined by newlines in arrival order,
   * one pending flush that captured the last call's recipients, and every
   * other key as it was.
   */
  lemma BurstCoalesces(st: State, fromUid: Uid, roomId: RoomId, msgs: seq<Message>,
                       members: seq<seq<Uid>>, finals: seq<seq<Uid>>, hook: Payload -> Option<Payload>)
    requires Valid(st)
    requires QueueKey(fromUid, roomId) !in st.queue
    requires 0 < |msgs| && |members| == |msgs| && |finals| == |msgs|
    requires forall i :: 0 <= i < |msgs| ==> !msgs[i].system
    requires forall i :: 0 <= i < |msgs| ==> Passes(hook, fromUid, roomId, msgs[i], members[i], finals[i])
    ensures Coalesced(st, Burst(st, fromUid, roomId, msgs, members, hook), QueueKey(fromUid, roomId),
                      msgs[0], Contents(msgs), Task(fromUid, roomId, finals[|finals| - 1]))
  {
    BurstIsEnqueueAll(st, fromUid, roomId, msgs, members, finals, hook);
    EnqueueAllCoalesces(st, fromUid, roomId, msgs, finals);
  }

  /** A hook that lets every payload through unchanged. */
  function PassThrough(p: Payload): Option<Payload>
  {
    Some(p)
  }

  function NobodyOnline(u: Uid): bool
  {
    false
  }

  function NotGroupChat(roomId: RoomId): bool
  {
    false
  }

  /** Uid 2 has come online by the time the flush runs. */
  function SecondUserOnline(u: Uid): bool
  {
    u == 2
  }

  const Hi: Message := Message("hi", User("alice"), "7", false)
  const There: Message := Message("there", User("alice"), "7", false)

  /** Sender 1 says "hi" in room "7", whose members are 1 and 2. */
  function FirstCall(): Handled
  {
    NotifyUsersInRoom(Initial, 1, "7", Hi, [1, 2], PassThrough)
  }

  /** Then sender 1 says "there" in the same room. */
  function SecondCall(): Handled
  {
    NotifyUsersInRoom(FirstCall().state, 1, "7", There, [1, 2], PassThrough)
  }

  /** One entry "hi" for key "1:7", whose only pending flush is handle 0. */
  const AfterHi: State := State(map["1:7" := Entry(Hi, 0)], map[0 := Task(1, "7", [1, 2])], 1)

  /** One entry "hi\nthere" for key "1:7", whose only pending flush is handle 1. */
  const AfterBurst: State :=
    State(map["1:7" := Entry(Message("hi\nthere", User("alice"), "7", false), 1)], map[1 := Task(1, "7", [1, 2])], 2)

  /** The payload each call broadcasts, before `self` is set. */
  function Sent(msg: Message): Payload
  {
    InitialPayload(1, "7", msg, [1, 2])
  }

  /** "hi" is broadcast to uid 1 as its own message and to uid 2 as someone else's, and opens the entry. */
  lemma FirstCallEffects()
    ensures FirstCall().deliveries == [Delivery(1, Sent(Hi).(self := Some(1))), Delivery(2, Sent(Hi).(self := Some(0)))]
    ensures FirstCall().state == AfterHi
  {
    assert QueueKey(1, "7") == "1:7" by {
      assert Decimal(1) == "1";
    }
    assert !Vetoed(PassThrough(Sent(Hi)));
  }

  /** "there" is broadcast the same way and is appended to the entry, re-arming its timeout. */
  lemma SecondCallEffects()
    ensures SecondCall().deliveries
      == [Delivery(1, Sent(There).(self := Some(1))), Delivery(2, Sent(There).(self := Some(0)))]
    ensures SecondCall().state == AfterBurst
  {
    FirstCallEffects();
    assert QueueKey(1, "7") == "1:7" by {
      assert Decimal(1) == "1";
    }
    assert !Vetoed(PassThrough(Sent(There)));
    assert "hi" + "\n" + "there" == "hi\nthere";
    assert SecondCall().state == Enqueue(AfterHi, 1, "7", There, [1, 2]);
  }

  /**
   * Each of the two messages is broadcast at once to both members, with
   * `self` 1 for the sender and 0 for uid 2; together they leave one entry
   * with both bodies and one pending flush.
   */
  lemma TwoMessagesState()
    ensures |FirstCall().deliveries| == 2 && |SecondCall().deliveries| == 2
    ensures FirstCall().deliveries[0].uid == 1 && FirstCall().deliveries[0].payload.self == Some(1)
    ensures FirstCall().deliveries[1].uid == 2 && FirstCall().deliveries[1].payload.self == Some(0)
    ensures SecondCall().deliveries[0].uid == 1 && SecondCall().deliveries[0].payload.self == Some(1)
    ensures SecondCall().deliveries[1].uid == 2 && SecondCall().deliveries[1].payload.self == Some(0)
    ensures FirstCall().deliveries[0].payload.message == Hi && SecondCall().deliveries[0].payload.message == There
    ensures SecondCall().state == AfterBurst
  {
    FirstCallEffects();
    SecondCallEffects();
  }

  /** The notification the burst produces, with its templates filled in. */
  lemma ScenarioDescriptor()
    ensures Describe(1, "7", Message("hi\nthere", User("alice"), "7", false), false)
      == Notification("new-chat", "[[email:notif.chat.subject, alice]]",
                      "[[notifications:new_message_from, alice]]", "hi\nthere", "chat_1_7", 1, "/chats/7")
  {
  }

  /** Of members 1 and 2, with nobody online, only uid 2 is notified of uid 1's messages. */
  lemma BurstRecipients()
    ensures OfflineRecipients(1, [1, 2], NobodyOnline) == [2]
    ensures OfflineRecipients(1, [1, 2], SecondUserOnline) == []
  {
    assert [1, 2][1..] == [2];
    assert [2][1..] == [];
  }

  /** The flush of the burst deletes its entry and pushes to uid 2. */
  lemma BurstFlushed()
    ensures SendNotifications(AfterBurst.queue, 1, [1, 2], "7", Message("hi\nthere", User("alice"), "7", false),
                              NobodyOnline, false)
      == Flushed(map[], Some(Push(Describe(1, "7", Message("hi\nthere", User("alice"), "7", false), false), [2])))
  {
    BurstRecipients();
    assert QueueKey(1, "7") == "1:7" by {
      assert Decimal(1) == "1";
    }
    assert AfterBurst.queue - {"1:7"} == map[];
  }

  /** With uid 2 offline, firing handle 1 sends the merged body to uid 2 and empties the queue. */
  lemma AfterBurstFlush()
    ensures Fire(AfterBurst, 1, Source, NobodyOnline, NotGroupChat)
      == Fired(State(map[], map[], 2), Some(Push(Describe(1, "7", Message("hi\nthere", User("alice"), "7", false), false), [2])))
  {
    var t := AfterBurst.timers[1];
    assert t.Key() == "1:7" by {
      assert Decimal(1) == "1";
    }
    var merged := AfterBurst.queue["1:7"].message;
    BurstFlushed();
    var f := SendNotifications(AfterBurst.queue, 1, [1, 2], "7", merged, NobodyOnline, false);
    assert Fire(AfterBurst, 1, Source, NobodyOnline, NotGroupChat) == Fired(State(f.queue, AfterBurst.timers - {1}, 2), f.push);
    assert AfterBurst.timers - {1} == map[];
  }

  /**
   * Both messages are broadcast at once; the first timeout was cleared, and
   * the second, with uid 2 offline, sends one notification "hi\nthere" to
   * uid 2 and empties the queue.
   */
  lemma ScenarioOneNotificationPerBurst()
    ensures |FirstCall().deliveries| == 2 && |SecondCall().deliveries| == 2
    ensures Fire(SecondCall().state, 0, Source, NobodyOnline, NotGroupChat) == Fired(SecondCall().state, None)
    ensures Fire(SecondCall().state, 1, Source, NobodyOnline, NotGroupChat).push
      == Some(Push(Notification("new-chat", "[[email:notif.chat.subject, alice]]",
                                "[[notifications:new_message_from, alice]]", "hi\nthere", "chat_1_7", 1, "/chats/7"),
                   [2]))
    ensures Fire(SecondCall().state, 1, Source, NobodyOnline, NotGroupChat).state.queue == map[]
  {
    TwoMessagesState();
    AfterBurstFlush();
    ScenarioDescriptor();
  }

  /** When uid 2 is back online at flush time, nothing is sent and the entry stays queued. */
  lemma ScenarioRecipientCameOnline()
    ensures Fire(SecondCall().state, 1, Source, SecondUserOnline, NotGroupChat).push == None
    ensures Fire(SecondCall().state, 1, Source, SecondUserOnline, NotGroupChat).state.queue == SecondCall().state.queue
  {
    SecondCallEffects();
    BurstRecipients();
    assert AfterBurst.timers[1].Key() == "1:7" by {
      assert Decimal(1) == "1";
    }
  }

  /**
   * Under notifications.js the same burst never produces a notification:
   * the fired timeout only returns a function, so the entry and its body
   * stay in the queue.
   */
  lemma CompiledTimerDropsNotification()
    ensures Fire(SecondCall().state, 1, Compiled, NobodyOnline, NotGroupChat).push == None
    ensures Fire(SecondCall().state, 1, Compiled, NobodyOnline, NotGroupChat).state.queue == SecondCall().state.queue
    ensures "1:7" in SecondCall().state.queue
    ensures Fire(SecondCall().state, 1, Source, NobodyOnline, NotGroupChat).push.Some?
  {
    SecondCallEffects();
    AfterBurstFlush();
  }

  /**
   * Under notifications.ts a pending flush whose captured recipients include
   * an offline user other than the sender notifies that user and retires the
   * key.
   */
  lemma FireNotifiesOfflineRecipient(st: State, h: Handle, online: Uid -> bool, isGroupChat: RoomId -> bool, u: Uid)
    requires Valid(st)
    requires h in st.timers
    requires u in st.timers[h].uids && !online(u) && u != st.timers[h].fromUid
    ensures Fire(st, h, Source, online, isGroupChat).push.Some?
    ensures u in Fire(st, h, Source, online, isGroupChat).push.value.recipients
    ensures Fire(st, h, Source, online, isGroupChat).push.value.notification.bodyLong
      == st.queue[st.timers[h].Key()].message.content
    ensures st.timers[h].Key() !in Fire(st, h, Source, online, isGroupChat).state.queue
  {
  }

  /**
   * A flush that finds every captured recipient online or the sender sends
   * nothing and keeps the entry, so the next message from that sender in that
   * room is appended to the already broadcast body.
   */
  lemma AllOnlineFlushKeepsStaleContent(st: State, h: Handle, online: Uid -> bool, isGroupChat: RoomId -> bool,
                                        msg: Message, uids: seq<Uid>, hook: Payload -> Option<Payload>)
    requires Valid(st)
    requires h in st.timers
    requires forall u :: u in st.timers[h].uids ==> online(u) || u == st.timers[h].fromUid
    requires !msg.system
    requires !Vetoed(hook(InitialPayload(st.timers[h].fromUid, st.timers[h].roomId, msg, uids)))
    ensures Fire(st, h, Source, online, isGroupChat).push.None?
    ensures Fire(st, h, Source, online, isGroupChat).state.queue == st.queue
    ensures var t := st.timers[h];
      var next := NotifyUsersInRoom(Fire(st, h, Source, online, isGroupChat).state, t.fromUid, t.roomId, msg, uids, hook);
      next.state.queue[t.Key()].message.content == st.queue[t.Key()].message.content + "\n" + msg.content
  {
  }
}

=== FILE: flush.dfy ===
/**
 * `sendNotifications`: keep the captured recipients who are offline and are
 * not the sender; if any remain, build one notification for the merged
 * message, delete the queue entry and push the notification to them.
 */
module Flush {
  import opened Wrappers
  import opened Keys
  import opened Chat
  import opened Queue

  /**
   * The captured uids that are offline and are not the sender; the source
   * filters with `parseInt(fromuid, 10) !== parseInt(uid, 10)`.
   */
  function OfflineRecipients(fromUid: Uid, uids: seq<Uid>, online: Uid -> bool): (r: seq<Uid>)
    ensures forall u :: u in r <==> u in uids && !online(u) && u != fromUid
    ensures multiset(r) <= multiset(uids)
  {
    if |uids| == 0 then []
    else
      var rest := OfflineRecipients(fromUid, uids[1..], online);
      assert uids == [uids[0]] + uids[1..];
      if !online(uids[0]) && uids[0] != fromUid then [uids[0]] + rest else rest
  }

  /** The filter keeps every occurrence of a kept uid and drops every occurrence of the others. */
  lemma {:induction false} OfflineRecipientsCounts(fromUid: Uid, uids: seq<Uid>, online: Uid -> bool)
    ensures forall u :: multiset(OfflineRecipients(fromUid, uids, online))[u]
                        == (if !online(u) && u != fromUid then multiset(uids)[u] else 0)
  {
    if |uids| > 0 {
      OfflineRecipientsCounts(fromUid, uids[1..], online);
      assert uids == [uids[0]] + uids[1..];
    }
  }

  const GroupChatKind: string := "new-group-chat"
  const DirectChatKind: string := "new-chat"

  /** The argument of `notifications.create`, from the first message's author and the merged body. */
  function Describe(fromUid: Uid, roomId: RoomId, msg: Message, isGroupChat: bool): Notification
  {
    var displayname := msg.fromUser.displayname;
    Notification(
      if isGroupChat then GroupChatKind else DirectChatKind,
      "[[email:notif.chat.subject, " + displayname + "]]",
      "[[notifications:new_message_from, " + displayname + "]]",
      msg.content,
      NotificationId(fromUid, roomId),
      fromUid,
      "/chats/" + msg.roomId)
  }

  datatype Flushed = Flushed(queue: map<string, Entry>, push: Option<Push>)

  /**
   * One flush against the queue. `online` answers `user.isOnline` and
   * `isGroupChat` answers `Messaging.isGroupChat` for the room.
   */
  function SendNotifications(queue: map<string, Entry>, fromUid: Uid, uids: seq<Uid>, roomId: RoomId,
                             msg: Message, online: Uid -> bool, isGroupChat: bool): (r: Flushed)
    ensures r.push.None? <==> forall u :: u in uids ==> online(u) || u == fromUid
    ensures r.push.None? ==> r.queue == queue
    ensures r.push.Some? ==> r.queue.Keys == queue.Keys - {QueueKey(fromUid, roomId)}
    ensures r.push.Some? ==> forall k :: k in r.queue ==> r.queue[k] == queue[k]
    ensures r.push.Some? ==> forall u :: u in r.push.value.recipients <==> u in uids && !online(u) && u != fromUid
    ensures r.push.Some? ==> multiset(r.push.value.recipients) <= multiset(uids)
    ensures r.push.Some? ==> forall u :: multiset(r.push.value.recipients)[u]
                                         == (if !online(u) && u != fromUid then multiset(uids)[u] else 0)
    ensures r.push.Some? ==> r.push.value.notification.bodyLong == msg.content
    ensures r.push.Some? ==> r.push.value.notification.nid == NotificationId(fromUid, roomId)
    ensures r.push.Some? ==> r.push.value.notification.path == "/chats/" + msg.roomId
    ensures r.push.Some? ==> r.push.value.notification.from == fromUid
    ensures r.push.Some? ==> r.push.value.notification.kind == (if isGroupChat then GroupChatKind else DirectChatKind)
    ensures r.push.Some? ==>
      r.push.value.notification.subject == "[[email:notif.chat.subject, " + msg.fromUser.displayname + "]]"
    ensures r.push.Some? ==>
      r.push.value.notification.bodyShort == "[[notifications:new_message_from, " + msg.fromUser.displayname + "]]"
  {
    var recipients := OfflineRecipients(fromUid, uids, online);
    OfflineRecipientsCounts(fromUid, uids, online);
    if |recipients| == 0 then
      Flushed(queue, None)
    else
      assert recipients[0] in recipients;
      Flushed(queue - {QueueKey(fromUid, roomId)}, Some(Push(Describe(fromUid, roomId, msg, isGroupChat), recipients)))
  }
}

=== FILE: keys.dfy ===
/**
 * The two identifiers the notifier derives from a sender and a room:
 * the queue key `${fromUid}:${roomId}` and the notification id
 * `chat_${fromuid}_${roomId}`. Both put a decimal uid in front of a
 * separator that is not a digit, so both can be split apart again and
 * two different (sender, room) pairs never share one.
 */
module Keys {
  import opened Wrappers
  import opened Text

  type Uid = nat
  type RoomId = string

  /** `${uid}${sep}${rest}`. */
  function Composite(uid: Uid, sep: char, rest: string): string
  {
    Decimal(uid) + [sep] + rest
  }

  /** Splits at the first `sep`; the part before it must be a non-empty run of digits. */
  function SplitComposite(s: string, sep: char): Option<(Uid, string)>
  {
    match IndexOf(s, sep)
    case None => None
    case Some(i) =>
      if 0 < i && AllDigits(s[..i]) then Some((ParseDecimal(s[..i]), s[i + 1..])) else None
  }

  lemma CompositeRoundTrip(uid: Uid, sep: char, rest: string)
    requires !IsDigit(sep)
    ensures SplitComposite(Composite(uid, sep, rest), sep) == Some((uid, rest))
  {
    var d := Decimal(uid);
    var s := Composite(uid, sep, rest);
    assert s[|d|] == sep;
    assert forall j :: 0 <= j < |d| ==> s[j] == d[j];
    assert IndexOf(s, sep) == Some(|d|);
    assert s[..|d|] == d;
    assert s[|d| + 1..] == rest;
    DecimalRoundTrip(uid);
  }

  /** The key of `Messaging.notifyQueue` for one sender in one room. */
  function QueueKey(fromUid: Uid, roomId: RoomId): string
  {
    Composite(fromUid, ':', roomId)
  }

  /** Recovers the sender and the room from a queue key. */
  function ParseQueueKey(key: string): Option<(Uid, RoomId)>
  {
    SplitComposite(key, ':')
  }

  lemma QueueKeyRoundTrip(fromUid: Uid, roomId: RoomId)
    ensures ParseQueueKey(QueueKey(fromUid, roomId)) == Some((fromUid, roomId))
  {
    CompositeRoundTrip(fromUid, ':', roomId);
  }

  /** Distinct (sender, room) pairs get distinct queue entries. */
  lemma QueueKeyInjective(u1: Uid, r1: RoomId, u2: Uid, r2: RoomId)
    requires QueueKey(u1, r1) == QueueKey(u2, r2)
    ensures u1 == u2 && r1 == r2
  {
    QueueKeyRoundTrip(u1, r1);
    QueueKeyRoundTrip(u2, r2);
  }

  /** The notification id `chat_${fromuid}_${roomId}`. */
  function NotificationId(fromUid: Uid, roomId: RoomId): string
  {
    "chat_" + Composite(fromUid, '_', roomId)
  }

  /** Distinct (sender, room) pairs get distinct notification ids. */
  lemma NotificationIdInjective(u1: Uid, r1: RoomId, u2: Uid, r2: RoomId)
    requires NotificationId(u1, r1) == NotificationId(u2, r2)
    ensures u1 == u2 && r1 == r2
  {
    var n1 := NotificationId(u1, r1);
    assert n1[5..] == Composite(u1, '_', r1);
    assert NotificationId(u2, r2)[5..] == Composite(u2, '_', r2);
    CompositeRoundTrip(u1, '_', r1);
    CompositeRoundTrip(u2, '_', r2);
  }
}

=== FILE: queue.dfy ===
/**
 * `Messaging.notifyQueue` together with the timers it arms. Timers are
 * abstract: a scheduled task is an entry of `timers`, `clearTimeout` removes
 * it (and does nothing once it has fired), `setTimeout` adds one under a
 * fresh handle. There is no clock.
 */
module Queue {
  import opened Keys
  import opened Chat

  type Handle = nat

  /** What the armed callback captured: the sender, the room and the recipient list of the arming call. */
  datatype Task = Task(fromUid: Uid, roomId: RoomId, uids: seq<Uid>) {
    function Key(): string {
      QueueKey(fromUid, roomId)
    }
  }

  /** A queue object: the merged message and the handle of its latest timeout. */
  datatype Entry = Entry(message: Message, timeout: Handle)

  datatype State = State(queue: map<string, Entry>, timers: map<Handle, Task>, nextHandle: Handle)

  /** `Messaging.notifyQueue = {}` with nothing scheduled. */
  const Initial: State := State(map[], map[], 0)

  /** Handles are drawn from a counter, so every handle in use is below it. */
  ghost predicate HandlesIssued(st: State)
  {
    && (forall h :: h in st.timers ==> h < st.nextHandle)
    && (forall k :: k in st.queue ==> st.queue[k].timeout < st.nextHandle)
  }

  /** Every scheduled task belongs to the entry under its key and is that entry's current timeout. */
  ghost predicate TimersOwned(st: State)
  {
    forall h :: h in st.timers ==> st.timers[h].Key() in st.queue && st.queue[st.timers[h].Key()].timeout == h
  }

  /** No two entries hold the same timeout handle. */
  ghost predicate TimeoutsDistinct(st: State)
  {
    forall k1, k2 :: k1 in st.queue && k2 in st.queue && k1 != k2 ==> st.queue[k1].timeout != st.queue[k2].timeout
  }

  /** The invariant of the queue and its timers. */
  ghost predicate Valid(st: State)
  {
    HandlesIssued(st) && TimersOwned(st) && TimeoutsDistinct(st)
  }

  /** The handles of the flushes pending for `key`. */
  function PendingFor(st: State, key: string): set<Handle>
  {
    set h | h in st.timers && st.timers[h].Key() == key
  }

  lemma InitialValid()
    ensures Valid(Initial)
    ensures forall key :: PendingFor(Initial, key) == {}
  {
  }

  /** In a valid state a key has at most one pending flush: the timeout its entry holds. */
  lemma AtMostOnePending(st: State, key: string)
    requires Valid(st)
    ensures PendingFor(st, key) <= (if key in st.queue then {st.queue[key].timeout} else {})
    ensures |PendingFor(st, key)| <= 1
  {
    var p := PendingFor(st, key);
    if key in st.queue {
      var t := st.queue[key].timeout;
      assert p <= {t};
      assert p == {} || p == {t};
    } else {
      assert p == {};
    }
  }

  /** `queueObj.message.content += `\n${messageObj.content}``: only the body grows. */
  function Append(merged: Message, msg: Message): (r: Message)
    ensures r.content == merged.content + "\n" + msg.content
    ensures r.fromUser == merged.fromUser && r.roomId == merged.roomId && r.system == merged.system
  {
    merged.(content := merged.content + "\n" + msg.content)
  }

  /**
   * The queue half of `notifyUsersInRoom` for a non-system message: append to
   * the existing entry and clear its timeout, or store the message itself;
   * then arm one timeout capturing this call's recipient list.
   */
  function Enqueue(st: State, fromUid: Uid, roomId: RoomId, msg: Message, uids: seq<Uid>): (r: State)
    ensures QueueKey(fromUid, roomId) in r.queue
    ensures r.queue.Keys == st.queue.Keys + {QueueKey(fromUid, roomId)}
    ensures forall k :: k in st.queue && k != QueueKey(fromUid, roomId) ==> r.queue[k] == st.queue[k]
    ensures QueueKey(fromUid, roomId) in st.queue ==>
      r.queue[QueueKey(fromUid, roomId)].message == Append(st.queue[QueueKey(fromUid, roomId)].message, msg)
    ensures QueueKey(fromUid, roomId) !in st.queue ==> r.queue[QueueKey(fromUid, roomId)].message == msg
    ensures r.queue[QueueKey(fromUid, roomId)].timeout in r.timers
    ensures r.timers[r.queue[QueueKey(fromUid, roomId)].timeout] == Task(fromUid, roomId, uids)
  {
    var key := QueueKey(fromUid, roomId);
    var cleared := if key in st.queue then st.timers - {st.queue[key].timeout} else st.timers;
    var merged := if key in st.queue then Append(st.queue[key].message, msg) else msg;
    var h := st.nextHandle;
    State(st.queue[key := Entry(merged, h)], cleared[h := Task(fromUid, roomId, uids)], h + 1)
  }

  /** Re-arming clears the key's previous timeout and leaves the timeouts of other keys alone. */
  lemma EnqueueClearsOnlyItsKey(st: State, fromUid: Uid, roomId: RoomId, msg: Message, uids: seq<Uid>)
    requires Valid(st)
    ensures QueueKey(fromUid, roomId) in st.queue ==>
      st.queue[QueueKey(fromUid, roomId)].timeout !in Enqueue(st, fromUid, roomId, msg, uids).timers
    ensures forall h :: h in st.timers && st.timers[h].Key() != QueueKey(fromUid, roomId) ==>
      h in Enqueue(st, fromUid, roomId, msg, uids).timers && Enqueue(st, fromUid, roomId, msg, uids).timers[h] == st.timers[h]
  {
    var r := Enqueue(st, fromUid, roomId, msg, uids);
    var key := QueueKey(fromUid, roomId);
    var cleared := if key in st.queue then st.timers - {st.queue[key].timeout} else st.timers;
    assert r.timers == cleared[st.nextHandle := Task(fromUid, roomId, uids)];
    forall h | h in st.timers && st.timers[h].Key() != key
      ensures h in r.timers && r.timers[h] == st.timers[h]
    {
      assert st.queue[st.timers[h].Key()].timeout == h;
      assert h in cleared;
    }
  }

  lemma EnqueueKeepsHandlesIssued(st: State, fromUid: Uid, roomId: RoomId, msg: Message, uids: seq<Uid>)
    requires HandlesIssued(st)
    ensures HandlesIssued(Enqueue(st, fromUid, roomId, msg, uids))
  {
  }

  lemma EnqueueKeepsTimeoutsDistinct(st: State, fromUid: Uid, roomId: RoomId, msg: Message, uids: seq<Uid>)
    requires HandlesIssued(st) && TimeoutsDistinct(st)
    ensures TimeoutsDistinct(Enqueue(st, fromUid, roomId, msg, uids))
  {
    var r := Enqueue(st, fromUid, roomId, msg, uids);
    var key := QueueKey(fromUid, roomId);
    forall k1, k2 | k1 in r.queue && k2 in r.queue && k1 != k2
      ensures r.queue[k1].timeout != r.queue[k2].timeout
    {
      if k1 != key && k2 != key {
        assert r.queue[k1] == st.queue[k1] && r.queue[k2] == st.queue[k2];
      }
    }
  }

  lemma EnqueueKeepsTimersOwned(st: State, fromUid: Uid, roomId: RoomId, msg: Message, uids: seq<Uid>)
    requires Valid(st)
    ensures TimersOwned(Enqueue(st, fromUid, roomId, msg, uids))
  {
    var r := Enqueue(st, fromUid, roomId, msg, uids);
    var key := QueueKey(fromUid, roomId);
    EnqueueClearsOnlyItsKey(st, fromUid, roomId, msg, uids);
    forall h | h in r.timers
      ensures r.timers[h].Key() in r.queue && r.queue[r.timers[h].Key()].timeout == h
    {
      if h != st.nextHandle {
        assert h in st.timers && st.timers[h].Key() != key;
      }
    }
  }

  /**
   * Enqueueing keeps `Valid`, and the key is left with exactly one pending
   * flush: the timeout just armed.
   */
  lemma EnqueuePreservesValid(st: State, fromUid: Uid, roomId: RoomId, msg: Message, uids: seq<Uid>)
    requires Valid(st)
    ensures Valid(Enqueue(st, fromUid, roomId, msg, uids))
    ensures var r := Enqueue(st, fromUid, roomId, msg, uids);
      PendingFor(r, QueueKey(fromUid, roomId)) == {r.queue[QueueKey(fromUid, roomId)].timeout}
  {
    var r := Enqueue(st, fromUid, roomId, msg, uids);
    EnqueueKeepsHandlesIssued(st, fromUid, roomId, msg, uids);
    EnqueueKeepsTimeoutsDistinct(st, fromUid, roomId, msg, uids);
    EnqueueKeepsTimersOwned(st, fromUid, roomId, msg, uids);
    AtMostOnePending(r, QueueKey(fromUid, roomId));
  }
}

=== FILE: text.dfy ===
/**
 * The string helpers the chat notifier relies on: JavaScript's rendering of a
 * non-negative integer in a template literal, the first index of a character,
 * and the newline join that coalescing produces.
 */
module Text {
  import opened Wrappers

  predicate IsDigit(c: char) {
    '0' <= c <= '9'
  }

  predicate AllDigits(s: string) {
    forall i :: 0 <= i < |s| ==> IsDigit(s[i])
  }

  function DigitValue(c: char): (d: nat)
    requires IsDigit(c)
    ensures d < 10
  {
    c as int - '0' as int
  }

  function DigitChar(d: nat): (c: char)
    requires d < 10
    ensures IsDigit(c) && DigitValue(c) == d
  {
    (d + '0' as int) as char
  }

  /** `${n}` for a non-negative integer: decimal digits, no leading zero. */
  function Decimal(n: nat): (s: string)
    ensures 0 < |s| && AllDigits(s)
  {
    if n < 10 then [DigitChar(n)] else Decimal(n / 10) + [DigitChar(n % 10)]
  }

  /** Reads a string of decimal digits back as a number. */
  function ParseDecimal(s: string): nat
    requires AllDigits(s)
  {
    if |s| == 0 then 0 else ParseDecimal(s[..|s| - 1]) * 10 + DigitValue(s[|s| - 1])
  }

  /** Rendering a uid and reading it back gives the uid again. */
  lemma {:induction false} DecimalRoundTrip(n: nat)
    ensures ParseDecimal(Decimal(n)) == n
  {
    var s := Decimal(n);
    if n < 10 {
      assert s[..|s| - 1] == [];
    } else {
      DecimalRoundTrip(n / 10);
      assert s[..|s| - 1] == Decimal(n / 10);
    }
  }

  /** The position of the first `c` in `s`, if there is one. */
  function IndexOf(s: string, c: char): (r: Option<nat>)
    ensures r.Some? ==> r.value < |s| && s[r.value] == c
    ensures r.Some? ==> forall j :: 0 <= j < r.value ==> s[j] != c
    ensures r.None? ==> forall j :: 0 <= j < |s| ==> s[j] != c
  {
    if |s| == 0 then None
    else if s[0] == c then Some(0)
    else
      match IndexOf(s[1..], c)
      case None => None
      case Some(i) => Some(i + 1)
  }

  /** `parts[0] + sep + parts[1] + ... + sep + parts[n-1]`, built by appending on the right. */
  function Join(parts: seq<string>, sep: string): string
  {
    if |parts| == 0 then ""
    else if |parts| == 1 then parts[0]
    else Join(parts[..|parts| - 1], sep) + sep + parts[|parts| - 1]
  }
}

=== FILE: wrappers.dfy ===
/** The optional value used wherever the source has `null`/`undefined`. */
module Wrappers {

  datatype Option<+T> = None | Some(value: T)
}
